=== FILE: README.md ===
# TaskPro task list, modelled in Dafny

TaskPro is a browser to-do list. Its logic lives in `Script.js`. The page keeps
an ordered array of tasks `{id, text, done, date}` and a single `lastDeleted`
record of the most recent deletion. Every user action edits that array, then
saves it and re-renders the page. This project models that state machine with
the page stripped away. A `Store` holds a `seq<Task>` and an `Option<Deleted>`
undo slot, and each action is a pure transition on it:

- adding a task (`Tasks.Add`);
- pinning a task to the front (`Tasks.Pin`);
- toggling done (`Tasks.Toggle`);
- committing an edit (`Tasks.Edit`);
- drag-and-drop reordering (`Tasks.Move`);
- deleting a task (`Tasks.Delete`) and undoing the deletion (`Tasks.Undo`);
- the touch swipe that triggers toggle or delete (`Tasks.Swipe`);
- page load with its two-task seed (`Tasks.Load`).

Three read-only derivations are modelled too:

- the progress numbers (`Stats`);
- the overdue highlight (`Overdue`);
- the CSV export (`Csv`).

Modules:

| file | module | contents |
|---|---|---|
| `wrappers.dfy` | `Wrappers` | `Option` |
| `splice.dfy` | `Splice` | the two `Array.prototype.splice` shapes the page uses (`RemoveAt`, `InsertAt`). A start index past the end is clamped, as JavaScript does. |
| `text.dfy` | `Text` | `String.prototype.trim` |
| `tasks.dfy` | `Tasks` | the data model, the seed list (`Seed`), the transitions and the invariant `Valid`. `Valid` means unique ids, non-empty trimmed texts, and an undo record whose task is not also in the list. |
| `stats.dfy` | `Stats` | `updateStats`, in exact integer arithmetic; `DoneCount` is the `filter(t => t.done).length` of Script.js:186 |
| `overdue.dfy` | `Overdue` | JavaScript string `<`, the overdue test `IsOverdue` (Script.js:71), and why the string test is calendar order for `yyyy-mm-dd` dates |
| `csv.dfy` | `Csv` | the export as the page writes it (`ExportAsWritten`, Script.js:209-213), an escaped export (`Export`), and a reader used to state the round trip |

Rows are addressed by index. The page's row handlers capture the row's
`index` (or its task object) when the row is rendered. Every mutation
re-renders, so that index is always the task's current position.

Clock reads become parameters:

- `Date.now()` becomes the `id` argument of `Add`. The seed reads it twice, once per task; those two readings are the `now` and `later` arguments of `Load` and `Seed`.
- `new Date().toISOString().split("T")[0]` becomes the `today` argument of `IsOverdue`.

`toISOString` gives the UTC date, not the local one. Because `today` is a
parameter, either reading fits the model.

## Model

| member | source | states |
|---|---|---|
| Text.Trim | Script.js:30-31 | the result has no white space at either end, is a slice of the input with only white space cut off, and is empty exactly when the input is all white space |
| Text.TrimIdempotent | Script.js:30 | trimming a trimmed text changes nothing |
| Tasks.Seed | Script.js:21-24 | the seed is two pending, undated tasks with good texts and ids `now` and `later + 1`; the ids are distinct exactly when `later + 1 != now` |
| Tasks.Load | Script.js:20-24 | a stored list is taken as is; without one the page starts with two pending, undated tasks, and that store is valid exactly when the two clock readings give distinct ids; no deletion is recorded |
| Tasks.Add | Script.js:29-38 | all-space input leaves the store unchanged; other input appends exactly one task with the trimmed text, `done = false`, the given id and date, and keeps every earlier task |
| Tasks.AddValid | Script.js:29-38 | adding under a fresh id keeps ids unique and texts non-empty and trimmed |
| Tasks.FindIndex | Script.js:52-53 | finds the first position carrying the id, and finds none exactly when no task carries it |
| Tasks.Pin | Script.js:51-56 | an absent id changes nothing; a present one puts the task at the first position carrying the id (the `findIndex` match) at index 0, keeps the length and the multiset of tasks, and keeps the others in their relative order |
| Tasks.PinIdempotent | Script.js:51-56 | pinning the same id twice is the same as pinning it once |
| Tasks.PinValid | Script.js:51-56 | pinning preserves the store invariant |
| Tasks.Toggle | Script.js:83-84 | only the chosen task's `done` flips; every other field and task is unchanged |
| Tasks.ToggleTwice | Script.js:83-84 | toggling twice restores the store |
| Tasks.ToggleValid | Script.js:83-84 | toggling preserves the store invariant |
| Tasks.Edit | Script.js:142-155 | only the chosen task's text can change: to the trimmed input, or not at all when the input is all white space |
| Tasks.EditUnchanged | Script.js:151-152 | leaving the edit field with the text untouched is a no-op |
| Tasks.EditSameText | Script.js:144 | any input that trims to the task's current text leaves the store unchanged |
| Tasks.EditValid | Script.js:144 | an edit never makes a text empty or untrimmed, and preserves the store invariant |
| Tasks.Move | Script.js:110-112 | a drop permutes the list: same length and multiset, the dragged task lands at the drop index, tasks outside the two indices keep their places, and taking the dragged task out of the result gives the original list without it, so all other tasks keep their relative order |
| Tasks.MoveBack | Script.js:110-112 | dragging the task back from `to` to `from` restores the list |
| Tasks.MoveExample | Script.js:110-112 | dropping index 0 on index 2 turns `[A, B, C, D]` into `[B, C, A, D]` |
| Tasks.MoveValid | Script.js:110-112 | a drop preserves the store invariant |
| Tasks.Delete | Script.js:159-161 | exactly the chosen task is removed, and `(task, index)` becomes the undo record, replacing any earlier one |
| Tasks.DeleteValid | Script.js:159-161 | a delete preserves the store invariant; the recorded task's id is no longer in the list |
| Tasks.Undo | Script.js:173-174 | the recorded task is back at its recorded index (or at the end if the list is now shorter), the rest of the list is unchanged around it, and the record is consumed |
| Tasks.UndoDelete | Script.js:159-174 | undo right after a delete restores the exact prior list |
| Tasks.UndoAfterTwoDeletes | Script.js:159-174 | after two deletes, undo restores only the second; the first stays lost |
| Tasks.UndoIdempotent | Script.js:173-177 | a second undo does nothing |
| Tasks.UndoValid | Script.js:173-174 | undo preserves the store invariant |
| Tasks.UndoAsWritten | Script.js:173-174 | the handler as written reinserts the recorded task at its clamped index, with the rest of the list unchanged around it, and keeps the record |
| Tasks.UndoAsWrittenAgrees | Script.js:173-174 | the handler as written restores the same list as the corrected undo; only the corrected one clears the record |
| Tasks.UndoAsWrittenTwice | Script.js:167-180 | pressing the handler twice while a record is held leaves two tasks with the same id |
| Tasks.UndoAsWrittenDuplicates | Script.js:159-180 | two deletes, then UNDO on both toasts, gives a list as long as the original with a duplicated id |
| Tasks.SwipeValid | Script.js:120-124 | a swipe of any length keeps the store invariant, and the list loses exactly one task when the swipe is more than 80 to the left and none otherwise |
| Tasks.SwipeRightTwice | Script.js:122 | two swipes of more than 80 to the right on the same row restore the store |
| Tasks.SwipeLeftUndo | Script.js:123 | UNDO (Script.js:173-174) after a swipe of more than 80 to the left restores the list |
| Splice.RemoveAt | Script.js:161 | `splice(i, 1)` shortens the array by one; elements before `i` stay, elements after it shift down by one |
| Splice.InsertAt | Script.js:174 | `splice(i, 0, x)` puts `x` at `i`, or at the end when `i` is past it; elements before stay, elements after shift up by one |
| Splice.InsertRemoved | Script.js:159-174 | putting a removed element back at its index restores the array |
| Splice.RemoveInserted | Script.js:110-112 | removing an element just inserted restores the array |
| Stats.DoneCountBound | Script.js:186 | the done count is at most the length; it equals the length exactly when all tasks are done, and is 0 exactly when none is |
| Stats.Percent | Script.js:189 | the percentage is within 0..100 and is 0 for an empty list or when nothing is done. It is 100 when all tasks are done. It is the share of done tasks rounded to the nearest whole percent, with halves rounded up. |
| Stats.ComputeStats | Script.js:184-189 | total is the length, done ≤ total, percent ≤ 100; an empty list gives 0/0/0 |
| Stats.UpdateStats | Script.js:184-189 | the single pass over the list yields the same numbers as `ComputeStats` |
| Stats.StatsExample | Script.js:186-189 | two done tasks out of three give 3, 2 and 67% |
| Stats.ToggleStats | Script.js:83-84 | a toggle moves the done count by exactly one, in the direction of the new flag |
| Stats.AddStats | Script.js:33-38 | an add adds one to the total and nothing to the done count |
| Stats.PinStats | Script.js:51-56 | pinning leaves all three numbers unchanged |
| Stats.MoveStats | Script.js:110-112 | a drop leaves all three numbers unchanged |
| Stats.DeleteUndoStats | Script.js:159-174 | a delete followed by its undo leaves all three numbers unchanged |
| Overdue.LexLessFirstDifference | Script.js:71 | the string `<` holds exactly when, at the first position where the strings differ, the left one ends or has the smaller character |
| Overdue.LexLessIrreflexive | Script.js:71 | no date sorts before itself |
| Overdue.LexLessTransitive | Script.js:71 | the string `<` is transitive |
| Overdue.LexLessTotal | Script.js:71 | two different strings are ordered one way or the other |
| Overdue.LexLessValue | Script.js:71 | for digit strings of equal length, string order is numeric order |
| Overdue.IsoDateOrder | Script.js:71 | for `yyyy-mm-dd` dates, the string `<` is calendar order (yyyymmdd as a number) |
| Overdue.OverdueChronological | Script.js:71 | for well-formed dates, a task is overdue exactly when it is pending and due on an earlier calendar day than today |
| Overdue.NotOverdue | Script.js:71 | a task without a date, or a done task, is never overdue |
| Overdue.OverdueExample | Script.js:71 | a pending task due yesterday is overdue, and toggling it done clears that |
| Csv.ExportLines | Script.js:209-213 | the export splits into the header line `Task,Status,Due Date` followed, when no text or date holds a line break, by exactly one line per task, in list order, each `"text",Done,date` or `"text",Pending,date`; the last line also ends in a line break |
| Csv.ExportEndsInBreak | Script.js:210-212 | every export, even of an empty list, ends in a line break |
| Csv.ExportExample | Script.js:209-213 | one pending task "Buy milk" due 2024-01-01 exports as the lines `Task,Status,Due Date` and `"Buy milk",Pending,2024-01-01`, the last ending in a line break |
| Csv.TakeLine | Script.js:210-212 | splits at the first line break: nothing when there is none, otherwise a break-free head and the rest |
| Csv.ExportAgrees | Script.js:212 | when no text holds a quote, the escaped export equals the page's export character for character |
| Csv.ExportRoundTrip | Script.js:209-213 | when no date holds a line break, reading the escaped export back recovers every task's text, status and date, in order |
| Csv.UnescapedQuoteBreaksRow | Script.js:212 | in the page's row, a quote in the text that is the text's first quote and is followed by neither a second quote nor a comma ends the quoted field early, and the row cannot be read |
| Csv.QuoteInTextBreaksExport | Script.js:209-213 | a one-task export whose text has such a quote (the first quote, followed by neither a quote nor a comma) cannot be read back as written, yet reads back intact when escaped, provided the date holds no line break |
| Csv.QuoteCommaMisreadsRow | Script.js:212 | when the text is `a",Done,c` or `a",Pending,c` (no quote in `a`, no line break in `c` or the date), the page's row is read, but as a different record: text `a`, the status written in the text, and the rest of the line as the date |
| Csv.QuoteCommaExample | Script.js:212 | the pending task `x",Done,y` reads back as a done task `x` due on `y",Pending,` |
| Csv.SayHiExample | Script.js:212 | the text `say "hi"` shows the bug |

## Findings

| source | as written | input that shows it | evidently intended | confidence | as-written member | corrected member |
|---|---|---|---|---|---|---|
| Script.js:167-180 | Every deletion opens its own toast. The UNDO handler on each toast reinserts the shared `lastDeleted` and never clears it. | Delete two tasks within 4 s, then press UNDO on both toasts. The second task comes back twice with one id. The first task never comes back. | Undo consumes the record, so a further undo is a no-op. | medium, not executed | Tasks.UndoAsWrittenDuplicates | Tasks.Undo |
| Script.js:212 | The text is written between quotes, but quotes inside it are not doubled. | A task with the text `say "hi"` exports as `"say "hi"",Pending,`. A reader that applies the quoted-field rule of RFC 4180 (section 2, rule 7) rejects that row; `Csv.Parse`, a reader of this export's layout that applies that rule to the text field, is one. Lenient readers accept it but read the text wrongly. Worse, the pending task `x",Done,y` exports as `"x",Done,y",Pending,`, which that reader accepts as a done task `x` due on `y",Pending,`. | Quotes inside a quoted field are doubled, as section 2 of RFC 4180 requires. | medium, not executed | Csv.QuoteInTextBreaksExport | Csv.ExportRoundTrip |

The rest of the model uses the corrected `Tasks.Undo`; `Tasks.UndoIdempotent` proves that a second undo is a no-op. `Tasks.UndoAsWritten`
is kept only to exhibit the first finding. `Csv.Export` is the corrected
export. `Csv.ExportAsWritten` is what the page produces, and the line-structure
lemmas are stated about it.

## Left out

- DOM construction, event wiring, CSS classes (`pinned`, `completed`, `overdue` as a class), the progress ring's stroke offset and the date label: presentation only (Script.js:63-131, 190-192).
- Persistence through `localStorage` and `JSON.stringify`/`JSON.parse`, and the theme toggle: external storage and UI.
- `Tasks.Load` takes the already-parsed stored list. `JSON.parse` throws on unreadable storage rather than falling back to the seed, and that exception is not modelled.
- Search filtering: it works on rendered `innerText` with Unicode `toLowerCase` and never touches the list (Script.js:201-205).
- The PDF export through `window.open` and `print`, and the Blob download in `exportCSV`: browser I/O. Only the CSV string is modelled.
- The undo toast's 4-second `setTimeout`: a timer. Undo is an explicit transition, and the toast's lifetime is not modelled.
- Escape while editing only re-renders, so it has no transition of its own. Whether the browser later fires `blur` on the removed field is not modelled.
- Text.Trim: treats only ASCII white space, NBSP, BOM and the two Unicode line separators as white space. `String.prototype.trim` also strips the other Unicode space separators.
- Overdue.LexLess: compares Unicode scalar values. JavaScript compares UTF-16 code units, and the two orders differ only for characters above U+FFFF against U+E000..U+FFFF, which dates never contain.
- Stats.Percent: uses exact half-up rounding. The page rounds a floating-point quotient, and IEEE-754 doubles evaluate 23/40*100 to 57.49999999999999, so the page shows 57% where exact rounding gives 58%. Floating point is not modelled.
- Tasks.Toggle, Tasks.Edit, Tasks.Delete, Tasks.Move and Tasks.Swipe require an index inside the list. The page only calls them from rendered rows. The page does not handle an out-of-range index, nor a drop from outside the page. `draggedIndex` is set on `dragstart` and never reset, so such a drop reuses the last drag's index, or `null` before any drag. A stale index past the end makes `splice` remove nothing and insert `undefined`.
- Object identity: toggle and edit mutate the task object that the row captured. When the as-written undo puts one object into the list twice, a toggle changes both rows. The model addresses tasks by value and index, so that aliasing is not modelled.
- The seed's two ids collide only if the clock steps back between its two readings. `Tasks.Load` states validity under exactly that condition and does not assume a monotonic clock.
- Ids from `Date.now()` can collide. `Add` takes the id as a parameter, and uniqueness is preserved only for a fresh id (`Tasks.AddValid`). `Pin` targets the first match, as `findIndex` does.

=== FILE: csv.dfy ===
/**
 * The CSV export: a header line, then one line per task in list order, each
 * holding the quoted text, `Done` or `Pending`, and the due date. The page
 * writes the text between quotes without escaping quotes inside it; `Export`
 * escapes them the way RFC 4180 (section 2, rule 7) prescribes, and `Parse`
 * reads a file in that layout back.
 */
module Csv {
  import opened Wrappers
  import opened Tasks

  const Header: string := "Task,Status,Due Date\n"

  function Status(done: bool): string {
    if done then "Done" else "Pending"
  }

  /** The rows of all tasks, one after the other, in list order. */
  function Join(ts: seq<Task>, row: Task -> string): string {
    if ts == [] then [] else row(ts[0]) + Join(ts[1..], row)
  }

  // ---------------------------------------------------------------- as the page writes it

  /** One line: the text between quotes, the status and the date, comma separated. */
  function Line(text: string, status: string, date: string): string {
    "\"" + text + "\"," + status + "," + date
  }

  function Fields(text: string, status: string, date: string): string {
    Line(text, status, date) + "\n"
  }

  function RowAsWritten(t: Task): string {
    Fields(t.text, Status(t.done), t.date)
  }

  function ExportAsWritten(ts: seq<Task>): string {
    Header + Join(ts, RowAsWritten)
  }

  // ---------------------------------------------------------------- line structure

  /** Splits off the text before the first line break, and what follows it. */
  function TakeLine(s: string): (r: Option<(string, string)>)
    ensures r.None? <==> '\n' !in s
    ensures r.Some? ==> '\n' !in r.value.0 && s == r.value.0 + "\n" + r.value.1
  {
    if s == [] then None
    else if s[0] == '\n' then Some(([], s[1..]))
    else
      match TakeLine(s[1..])
      case None => None
      case Some(p) =>
        assert s == [s[0]] + s[1..];
        Some(([s[0]] + p.0, p.1))
  }

  lemma {:induction false} TakeLineOf(x: string, rest: string)
    requires '\n' !in x
    ensures TakeLine(x + "\n" + rest) == Some((x, rest))
  {
    var s := x + "\n" + rest;
    if x == [] {
      assert s == "\n" + rest;
    } else {
      assert s[0] == x[0] && s[1..] == x[1..] + "\n" + rest;
      TakeLineOf(x[1..], rest);
      assert x == [x[0]] + x[1..];
    }
  }

  /** The lines of a text, each without its terminating line break. */
  function SplitLines(s: string): seq<string>
    decreases |s|
  {
    match TakeLine(s)
    case None => if s == [] then [] else [s]
    case Some(p) => [p.0] + SplitLines(p.1)
  }

  predicate NoLineBreaks(ts: seq<Task>) {
    forall k :: 0 <= k < |ts| ==> '\n' !in ts[k].text && '\n' !in ts[k].date
  }

  function LineAsWritten(t: Task): string {
    Line(t.text, Status(t.done), t.date)
  }

  /**
   * The export is the header line followed by exactly one line per task, in
   * list order, each reading `"text",Done|Pending,date`.
   */
  lemma {:induction false} ExportLines(ts: seq<Task>)
    requires NoLineBreaks(ts)
    ensures var lines := SplitLines(ExportAsWritten(ts));
      && |lines| == |ts| + 1
      && lines[0] == "Task,Status,Due Date"
      && forall k :: 0 <= k < |ts| ==> lines[k + 1] == LineAsWritten(ts[k])
    ensures var e := ExportAsWritten(ts); |e| > 0 && e[|e| - 1] == '\n'
  {
    HeaderLine();
    TakeLineOf("Task,Status,Due Date", Join(ts, RowAsWritten));
    RowLines(ts);
    ExportEndsInBreak(ts);
  }

  /**
   * One pending task "Buy milk" due on 2024-01-01 exports as the header line
   * and the line `"Buy milk",Pending,2024-01-01`, each ending in a line break.
   */
  lemma ExportExample()
    ensures var e := ExportAsWritten([Task(0, "Buy milk", false, "2024-01-01")]);
      && SplitLines(e) == ["Task,Status,Due Date", "\"Buy milk\",Pending,2024-01-01"]
      && e[|e| - 1] == '\n'
  {
    var t := Task(0, "Buy milk", false, "2024-01-01");
    BuyMilkFields();
    BuyMilkLine();
    assert NoLineBreaks([t]);
    ExportLines([t]);
  }

  lemma BuyMilkFields()
    ensures '\n' !in "Buy milk" && '\n' !in "2024-01-01"
  {
  }

  lemma BuyMilkLine()
    ensures Line("Buy milk", "Pending", "2024-01-01") == "\"Buy milk\",Pending,2024-01-01"
  {
  }

  /** The last line, like every other, is terminated by a line break. */
  lemma ExportEndsInBreak(ts: seq<Task>)
    ensures var e := ExportAsWritten(ts); |e| > 0 && e[|e| - 1] == '\n'
  {
    HeaderLine();
    if ts != [] {
      JoinEndsInBreak(ts);
    }
  }

  lemma {:induction false} JoinEndsInBreak(ts: seq<Task>)
    requires ts != []
    ensures var j := Join(ts, RowAsWritten); |j| > 0 && j[|j| - 1] == '\n'
  {
    var t := ts[0];
    var row := RowAsWritten(t);
    assert row == Line(t.text, Status(t.done), t.date) + "\n";
    if ts[1..] != [] {
      JoinEndsInBreak(ts[1..]);
    }
  }

  lemma HeaderLine()
    ensures Header == "Task,Status,Due Date" + "\n"
    ensures '\n' !in "Task,Status,Due Date"
  {
  }

  lemma LineHasNoBreak(text: string, status: string, date: string)
    requires '\n' !in text && '\n' !in status && '\n' !in date
    ensures '\n' !in Line(text, status, date)
  {
  }

  lemma {:induction false} RowLines(ts: seq<Task>)
    requires NoLineBreaks(ts)
    ensures var lines := SplitLines(Join(ts, RowAsWritten));
      && |lines| == |ts|
      && forall k :: 0 <= k < |ts| ==> lines[k] == LineAsWritten(ts[k])
  {
    if ts != [] {
      var t := ts[0];
      LineHasNoBreak(t.text, Status(t.done), t.date);
      SplitLinesCons(LineAsWritten(t), Join(ts[1..], RowAsWritten));
      NoLineBreaksTail(ts);
      RowLines(ts[1..]);
    }
  }

  lemma SplitLinesCons(x: string, rest: string)
    requires '\n' !in x
    ensures SplitLines(x + "\n" + rest) == [x] + SplitLines(rest)
  {
    TakeLineOf(x, rest);
  }

  lemma NoLineBreaksTail(ts: seq<Task>)
    requires ts != [] && NoLineBreaks(ts)
    ensures '\n' !in ts[0].text && '\n' !in ts[0].date && NoLineBreaks(ts[1..])
  {
    forall k | 0 <= k < |ts| - 1 ensures '\n' !in ts[1..][k].text && '\n' !in ts[1..][k].date {
      assert ts[1..][k] == ts[k + 1];
    }
  }

  // ---------------------------------------------------------------- escaped export

  /** One character as it appears inside a quoted field. */
  function EscapeChar(c: char): string {
    if c == '"' then "\"\"" else [c]
  }

  /** Doubles every quote character, so the text can stand between quotes. */
  function Escape(s: string): (r: string)
    ensures '"' !in s ==> r == s
    ensures |r| >= |s|
  {
    if s == [] then []
    else EscapeChar(s[0]) + Escape(s[1..])
  }

  function Row(t: Task): string {
    Fields(Escape(t.text), Status(t.done), t.date)
  }

  /** The export with quotes inside the text escaped. */
  function Export(ts: seq<Task>): string {
    Header + Join(ts, Row)
  }

  /** Where no text holds a quote, the escaped export is byte for byte the page's. */
  lemma {:induction false} ExportAgrees(ts: seq<Task>)
    requires forall k :: 0 <= k < |ts| ==> '"' !in ts[k].text
    ensures Export(ts) == ExportAsWritten(ts)
  {
    JoinAgrees(ts);
  }

  lemma {:induction false} JoinAgrees(ts: seq<Task>)
    requires forall k :: 0 <= k < |ts| ==> '"' !in ts[k].text
    ensures Join(ts, Row) == Join(ts, RowAsWritten)
  {
    if ts != [] {
      assert '"' !in ts[0].text;
      JoinAgrees(ts[1..]);
    }
  }

  // ---------------------------------------------------------------- reading a file back

  /** What a spreadsheet recovers from one row: text, status and date. */
  datatype Record = Record(text: string, done: bool, date: string)

  function RecordOf(t: Task): Record {
    Record(t.text, t.done, t.date)
  }

  function Records(ts: seq<Task>): (rs: seq<Record>)
    ensures |rs| == |ts|
    ensures forall k :: 0 <= k < |ts| ==> rs[k] == RecordOf(ts[k])
  {
    if ts == [] then [] else [RecordOf(ts[0])] + Records(ts[1..])
  }

  /**
   * Reads a quoted field whose opening quote is already consumed: a doubled
   * quote stands for one quote, a single quote closes the field. Yields the
   * field and the text after the closing quote.
   */
  function ParseQuoted(s: string): (r: Option<(string, string)>)
    ensures r.Some? ==> |r.value.1| < |s|
    decreases |s|
  {
    if s == [] then None
    else if s[0] == '"' then
      if |s| > 1 && s[1] == '"' then
        match ParseQuoted(s[2..])
        case None => None
        case Some(p) => Some(("\"" + p.0, p.1))
      else Some(([], s[1..]))
    else
      match ParseQuoted(s[1..])
      case None => None
      case Some(p) => Some(([s[0]] + p.0, p.1))
  }

  function ParseStatus(s: string): (r: Option<(bool, string)>)
    ensures r.Some? ==> |r.value.1| < |s|
  {
    if |s| >= 5 && s[..5] == "Done," then Some((true, s[5..]))
    else if |s| >= 8 && s[..8] == "Pending," then Some((false, s[8..]))
    else None
  }

  /** Reads one row and yields the record and the text after its line break. */
  function ParseRow(s: string): (r: Option<(Record, string)>)
    ensures r.Some? ==> |r.value.1| < |s|
  {
    if s == [] || s[0] != '"' then None
    else
      var q :- ParseQuoted(s[1..]);
      if q.1 == [] || q.1[0] != ',' then None
      else
        var st :- ParseStatus(q.1[1..]);
        var line :- TakeLine(st.1);
        Some((Record(q.0, st.0, line.0), line.1))
  }

  function ParseRows(s: string): Option<seq<Record>>
    decreases |s|
  {
    if s == [] then Some([])
    else
      var row :- ParseRow(s);
      var rest :- ParseRows(row.1);
      Some([row.0] + rest)
  }

  /** Reads an exported file: the header, then rows up to the end. */
  function Parse(s: string): Option<seq<Record>> {
    if |s| >= |Header| && s[..|Header|] == Header then ParseRows(s[|Header|..])
    else None
  }

  lemma {:induction false} ParseQuotedEscape(x: string, rest: string)
    requires rest == [] || rest[0] != '"'
    ensures ParseQuoted(Escape(x) + "\"" + rest) == Some((x, rest))
  {
    if x == [] {
      assert Escape(x) + "\"" + rest == "\"" + rest;
    } else {
      var tail := Escape(x[1..]) + "\"" + rest;
      ParseQuotedEscape(x[1..], rest);
      EscapeHead(x, rest);
      ParseQuotedStep(x[0], tail, x[1..], rest);
      assert x == [x[0]] + x[1..];
    }
  }

  lemma EscapeHead(x: string, rest: string)
    requires x != []
    ensures Escape(x) + "\"" + rest == EscapeChar(x[0]) + (Escape(x[1..]) + "\"" + rest)
  {
  }

  /** One escaped character in front of a field that reads back adds that character to the field. */
  lemma ParseQuotedStep(c: char, tail: string, y: string, rest: string)
    requires ParseQuoted(tail) == Some((y, rest))
    ensures ParseQuoted(EscapeChar(c) + tail) == Some(([c] + y, rest))
  {
    var s := EscapeChar(c) + tail;
    if c == '"' {
      assert s[0] == '"' && s[1] == '"' && s[2..] == tail;
    } else {
      assert s[0] == c && s[1..] == tail;
    }
  }

  lemma ParseStatusOf(done: bool, rest: string)
    ensures ParseStatus(Status(done) + "," + rest) == Some((done, rest))
  {
    var s := Status(done) + "," + rest;
    if done {
      assert s[..5] == "Done," && s[5..] == rest;
    } else {
      assert s[..5] != "Done," by { assert s[0] == 'P'; }
      assert s[..8] == "Pending," && s[8..] == rest;
    }
  }

  /** How `ParseRow` reads a row, one field at a time. */
  lemma ParseRowSteps(s: string, text: string, tail: string)
    requires s != [] && s[0] == '"' && ParseQuoted(s[1..]) == Some((text, tail))
    ensures tail == [] || tail[0] != ',' ==> ParseRow(s) == None
    ensures tail != [] && tail[0] == ',' ==>
      ParseRow(s) == match ParseStatus(tail[1..])
        case None => None
        case Some(st) =>
          match TakeLine(st.1)
          case None => None
          case Some(line) => Some((Record(text, st.0, line.0), line.1))
  {
  }

  lemma ParseRowOf(t: Task, rest: string)
    requires '\n' !in t.date
    ensures ParseRow(Row(t) + rest) == Some((RecordOf(t), rest))
  {
    var after := t.date + "\n" + rest;
    var tail := "," + (Status(t.done) + "," + after);
    var s := Row(t) + rest;
    RowShape(t, rest, after, tail);
    ParseQuotedEscape(t.text, tail);
    ParseStatusOf(t.done, after);
    TakeLineOf(t.date, rest);
    ParseRowSteps(s, t.text, tail);
  }

  lemma RowShape(t: Task, rest: string, after: string, tail: string)
    requires after == t.date + "\n" + rest
    requires tail == "," + (Status(t.done) + "," + after)
    ensures Row(t) + rest == "\"" + (Escape(t.text) + "\"" + tail)
    ensures (Row(t) + rest)[1..] == Escape(t.text) + "\"" + tail
    ensures tail[0] == ',' && tail[1..] == Status(t.done) + "," + after
  {
    FieldsShape(Escape(t.text), Status(t.done), t.date, rest);
  }

  /** `Fields` regrouped as the reader consumes it: quote, text, quote, then the rest. */
  lemma FieldsShape(text: string, status: string, date: string, rest: string)
    ensures Fields(text, status, date) + rest
         == "\"" + (text + "\"" + ("," + (status + "," + (date + "\n" + rest))))
  {
    assert "\"," == "\"" + ",";
  }

  /** Reading the escaped rows back yields every task's text, status and date, in order. */
  lemma {:induction false} ParseRowsJoin(ts: seq<Task>)
    requires forall k :: 0 <= k < |ts| ==> '\n' !in ts[k].date
    ensures ParseRows(Join(ts, Row)) == Some(Records(ts))
  {
    if ts != [] {
      var rest := Join(ts[1..], Row);
      assert '\n' !in ts[0].date;
      ParseRowOf(ts[0], rest);
      assert Row(ts[0]) != [];
      ParseRowsJoin(ts[1..]);
    }
  }

  /** The escaped export round-trips: a reader recovers every task's text, status and date. */
  lemma ExportRoundTrip(ts: seq<Task>)
    requires forall k :: 0 <= k < |ts| ==> '\n' !in ts[k].date
    ensures Parse(Export(ts)) == Some(Records(ts))
  {
    var s := Export(ts);
    assert s[..|Header|] == Header && s[|Header|..] == Join(ts, Row);
    ParseRowsJoin(ts);
  }

  /**
   * In the page's row, a quote inside the text that is not followed by a comma
   * or a second quote ends the quoted field early, and the row cannot be read.
   */
  lemma UnescapedQuoteBreaksRow(t: Task, a: string, b: string)
    requires t.text == a + "\"" + b && '"' !in a
    requires b != [] && b[0] != '"' && b[0] != ','
    ensures ParseRow(RowAsWritten(t)) == None
  {
    var tail := "," + (Status(t.done) + "," + (t.date + "\n"));
    var rest := b + ("\"" + tail);
    var row := RowAsWritten(t);
    FieldsShape(t.text, Status(t.done), t.date, []);
    assert row == "\"" + (a + "\"" + rest);
    assert row[1..] == Escape(a) + "\"" + rest;
    ParseQuotedEscape(a, rest);
    assert rest[0] == b[0];
    ParseRowSteps(row, a, rest);
  }

  /**
   * A one-task export whose text holds such a quote cannot be read back as the
   * page writes it, and reads back intact when escaped.
   */
  lemma QuoteInTextBreaksExport(t: Task, a: string, b: string)
    requires t.text == a + "\"" + b && '"' !in a
    requires b != [] && b[0] != '"' && b[0] != ','
    requires '\n' !in t.date
    ensures Parse(ExportAsWritten([t])) == None
    ensures Parse(Export([t])) == Some([RecordOf(t)])
  {
    var row := RowAsWritten(t);
    UnescapedQuoteBreaksRow(t, a, b);
    JoinOne(t, RowAsWritten);
    ParseAfterHeader(row);
    assert [t][0] == t;
    ExportRoundTrip([t]);
    assert Records([t]) == [RecordOf(t)];
  }

  lemma JoinOne(t: Task, row: Task -> string)
    ensures Join([t], row) == row(t)
  {
    assert [t][1..] == [];
  }

  lemma ParseAfterHeader(x: string)
    ensures Parse(Header + x) == ParseRows(x)
  {
    var s := Header + x;
    assert s[..|Header|] == Header && s[|Header|..] == x;
  }

  /** The task `say "hi"`, pending, without a date, is such a task. */
  /**
   * A quote followed by a comma is worse: the row is read, but as a different
   * record. Text `a",Done,c` ends the text field after `a`, its `Done` becomes
   * the status, and the rest of the line becomes the date.
   */
  lemma QuoteCommaMisreadsRow(t: Task, a: string, done: bool, c: string)
    requires t.text == a + "\"," + Status(done) + "," + c && '"' !in a
    requires '\n' !in c && '\n' !in t.date
    ensures ParseRow(RowAsWritten(t))
         == Some((Record(a, done, c + "\"," + Status(t.done) + "," + t.date), []))
  {
    var row := RowAsWritten(t);
    var line := c + "\"," + Status(t.done) + "," + t.date;
    var after := line + "\n" + [];
    var rest := "," + (Status(done) + "," + after);
    MisreadShape(a, Status(done), c, Status(t.done), t.date, t.text, row, line, after, rest);
    ParseQuotedEscape(a, rest);
    ParseStatusOf(done, after);
    assert '\n' !in Status(t.done);
    TakeLineOf(line, []);
    ParseRowSteps(row, a, rest);
  }

  /** The page's row for a text `a",s1,c`, regrouped as the reader consumes it. */
  lemma MisreadShape(a: string, s1: string, c: string, s2: string, date: string,
                     text: string, row: string, line: string, after: string, rest: string)
    requires text == a + "\"," + s1 + "," + c
    requires row == Fields(text, s2, date)
    requires line == c + "\"," + s2 + "," + date
    requires after == line + "\n" + []
    requires rest == "," + (s1 + "," + after)
    ensures row != [] && row[0] == '"' && row[1..] == a + "\"" + rest
  {
    FieldsShape(text, s2, date, []);
    assert "\"," == "\"" + ",";
    assert row == "\"" + (a + "\"" + rest);
  }

  /** The pending task `x",Done,y` reads back as a done task `x` due on `y",Pending,`. */
  lemma QuoteCommaExample()
    ensures ParseRow(RowAsWritten(Task(0, "x\",Done,y", false, "")))
         == Some((Record("x", true, "y\",Pending,"), []))
  {
    var t := Task(0, "x\",Done,y", false, "");
    QuoteCommaLiterals();
    QuoteCommaMisreadsRow(t, "x", true, "y");
  }

  lemma QuoteCommaLiterals()
    ensures "x\",Done,y" == "x" + "\"," + Status(true) + "," + "y"
    ensures "y" + "\"," + Status(false) + "," + "" == "y\",Pending,"
    ensures '"' !in "x" && '\n' !in "y"
  {
  }

  lemma SayHiExample()
    ensures Parse(ExportAsWritten([Task(0, "say \"hi\"", false, "")])) == None
    ensures Parse(Export([Task(0, "say \"hi\"", false, "")])) == Some([Record("say \"hi\"", false, "")])
  {
    var t := Task(0, "say \"hi\"", false, "");
    assert t.text == "say " + "\"" + "hi\"";
    QuoteInTextBreaksExport(t, "say ", "hi\"");
  }
}

=== FILE: overdue.dfy ===
/**
 * The overdue highlight: a pending task whose due date string sorts before
 * today's date string. The page compares the two strings with JavaScript's
 * `<`, which orders strings lexicographically by character; for dates in the
 * `yyyy-mm-dd` form a date input produces, that order is the calendar order.
 */
module Overdue {
  import opened Tasks

  /** JavaScript's `<` on strings: lexicographic, a proper prefix sorts first. */
  predicate LexLess(a: string, b: string) {
    if a == [] then b != []
    else if b == [] then false
    else a[0] < b[0] || (a[0] == b[0] && LexLess(a[1..], b[1..]))
  }

  /** `a` and `b` agree up to `k`, where `a` either ends or has the smaller character. */
  predicate FirstDifference(a: string, b: string, k: nat) {
    && k <= |a| && k <= |b| && a[..k] == b[..k]
    && ((k == |a| && k < |b|) || (k < |a| && k < |b| && a[k] < b[k]))
  }

  /** The recursive comparison agrees with the textbook definition of lexicographic order. */
  lemma {:induction false} LexLessFirstDifference(a: string, b: string)
    ensures LexLess(a, b) <==> exists k: nat :: FirstDifference(a, b, k)
  {
    if LexLess(a, b) {
      if a == [] || a[0] < b[0] {
        assert FirstDifference(a, b, 0);
      } else {
        LexLessFirstDifference(a[1..], b[1..]);
        var k: nat :| FirstDifference(a[1..], b[1..], k);
        assert a[..k + 1] == [a[0]] + a[1..][..k];
        assert b[..k + 1] == [b[0]] + b[1..][..k];
        assert FirstDifference(a, b, k + 1);
      }
    }
    if exists k: nat :: FirstDifference(a, b, k) {
      var k: nat :| FirstDifference(a, b, k);
      if k > 0 {
        assert a[0] == a[..k][0] == b[..k][0] == b[0];
        assert a[1..][..k - 1] == a[..k][1..] && b[1..][..k - 1] == b[..k][1..];
        assert FirstDifference(a[1..], b[1..], k - 1);
        LexLessFirstDifference(a[1..], b[1..]);
      }
    }
  }

  lemma {:induction false} LexLessIrreflexive(a: string)
    ensures !LexLess(a, a)
  {
    if a != [] {
      LexLessIrreflexive(a[1..]);
    }
  }

  lemma {:induction false} LexLessTransitive(a: string, b: string, c: string)
    requires LexLess(a, b) && LexLess(b, c)
    ensures LexLess(a, c)
  {
    if a != [] && a[0] == b[0] && b[0] == c[0] {
      LexLessTransitive(a[1..], b[1..], c[1..]);
    }
  }

  /** Any two different strings are ordered one way or the other. */
  lemma {:induction false} LexLessTotal(a: string, b: string)
    requires a != b
    ensures LexLess(a, b) || LexLess(b, a)
  {
    if a != [] && b != [] && a[0] == b[0] {
      assert a == [a[0]] + a[1..] && b == [b[0]] + b[1..];
      LexLessTotal(a[1..], b[1..]);
    }
  }

  /** Comparing concatenations of equally long heads compares heads first, then tails. */
  lemma {:induction false} LexLessConcat(x: string, y: string, x': string, y': string)
    requires |x| == |x'|
    ensures LexLess(x + y, x' + y') <==> LexLess(x, x') || (x == x' && LexLess(y, y'))
  {
    if x == [] {
      assert x + y == y && x' + y' == y';
    } else {
      assert (x + y)[1..] == x[1..] + y && (x' + y')[1..] == x'[1..] + y';
      LexLessConcat(x[1..], y, x'[1..], y');
      if x[0] == x'[0] {
        assert x == x' <==> x[1..] == x'[1..] by {
          assert x == [x[0]] + x[1..] && x' == [x'[0]] + x'[1..];
        }
      }
    }
  }

  /**
   * The row highlight in the render loop: the task has a due date, that date
   * sorts before `today`, and the task is not done. `today` stands for the
   * date part of `new Date().toISOString()`.
   */
  predicate IsOverdue(t: Task, today: string) {
    t.date != [] && LexLess(t.date, today) && !t.done
  }

  // ---------------------------------------------------------------- calendar dates

  predicate IsDigit(c: char) {
    '0' <= c <= '9'
  }

  predicate AllDigits(s: string) {
    forall k :: 0 <= k < |s| ==> IsDigit(s[k])
  }

  /** The `yyyy-mm-dd` form a date input yields. */
  predicate IsIsoDate(s: string) {
    && |s| == 10 && s[4] == '-' && s[7] == '-'
    && AllDigits(s[..4]) && AllDigits(s[5..7]) && AllDigits(s[8..])
  }

  function Pow10(n: nat): (p: nat)
    ensures p >= 1
  {
    if n == 0 then 1 else 10 * Pow10(n - 1)
  }

  /** The number a digit string spells in decimal. */
  function Value(s: string): (v: nat)
    requires AllDigits(s)
    ensures v < Pow10(|s|)
  {
    if s == [] then 0
    else
      var d := s[0] as int - '0' as int;
      var rest := Value(s[1..]);
      DigitWeight(d, 10, Pow10(|s| - 1), rest, 0);
      d * Pow10(|s| - 1) + rest
  }

  /** For digit strings of one length, string order is numeric order. */
  lemma {:induction false} LexLessValue(a: string, b: string)
    requires AllDigits(a) && AllDigits(b) && |a| == |b|
    ensures LexLess(a, b) <==> Value(a) < Value(b)
  {
    if a != [] {
      var p := Pow10(|a| - 1);
      var da, db := a[0] as int - '0' as int, b[0] as int - '0' as int;
      assert Value(a) == da * p + Value(a[1..]) && Value(b) == db * p + Value(b[1..]);
      if da < db {
        DigitWeight(da, db, p, Value(a[1..]), Value(b[1..]));
      } else if db < da {
        DigitWeight(db, da, p, Value(b[1..]), Value(a[1..]));
      } else {
        LexLessValue(a[1..], b[1..]);
      }
    }
  }

  /** A smaller leading digit outweighs any tail below the digit's place value. */
  lemma DigitWeight(d: int, e: int, p: nat, x: nat, y: nat)
    requires d < e && x < p
    ensures d * p + x < e * p + y
    decreases e - d
  {
    assert e * p == (e - 1) * p + p;
    if e - 1 > d {
      DigitWeight(d, e - 1, p, x, y);
    }
  }

  /** The eight digits of a `yyyy-mm-dd` date, read as the number yyyymmdd. */
  function DateNumber(s: string): nat
    requires IsIsoDate(s)
  {
    Value(s[..4] + s[5..7] + s[8..])
  }

  lemma DateParts(s: string)
    requires IsIsoDate(s)
    ensures s == s[..4] + (['-'] + (s[5..7] + (['-'] + s[8..])))
    ensures AllDigits(s[..4] + s[5..7] + s[8..])
  {
    assert s == s[..4] + [s[4]] + s[5..7] + [s[7]] + s[8..];
  }

  /** On `yyyy-mm-dd` dates the page's string comparison is calendar order. */
  lemma IsoDateOrder(a: string, b: string)
    requires IsIsoDate(a) && IsIsoDate(b)
    ensures LexLess(a, b) <==> DateNumber(a) < DateNumber(b)
  {
    DateParts(a);
    DateParts(b);
    var a1, a2, a3 := a[..4], a[5..7], a[8..];
    var b1, b2, b3 := b[..4], b[5..7], b[8..];
    LexLessConcat(a1, ['-'] + (a2 + (['-'] + a3)), b1, ['-'] + (b2 + (['-'] + b3)));
    assert (['-'] + (a2 + (['-'] + a3)))[1..] == a2 + (['-'] + a3);
    assert (['-'] + (b2 + (['-'] + b3)))[1..] == b2 + (['-'] + b3);
    LexLessConcat(a2, ['-'] + a3, b2, ['-'] + b3);
    assert (['-'] + a3)[1..] == a3 && (['-'] + b3)[1..] == b3;
    assert a1 + a2 + a3 == a1 + (a2 + a3) && b1 + b2 + b3 == b1 + (b2 + b3);
    LexLessConcat(a1, a2 + a3, b1, b2 + b3);
    LexLessConcat(a2, a3, b2, b3);
    LexLessValue(a1 + a2 + a3, b1 + b2 + b3);
  }

  /** For well-formed dates, overdue means pending and due on an earlier calendar day. */
  lemma OverdueChronological(t: Task, today: string)
    requires IsIsoDate(t.date) && IsIsoDate(today)
    ensures IsOverdue(t, today) <==> !t.done && DateNumber(t.date) < DateNumber(today)
  {
    IsoDateOrder(t.date, today);
  }

  /** A task without a due date, or one that is done, is never overdue. */
  lemma NotOverdue(t: Task, today: string)
    requires t.date == [] || t.done
    ensures !IsOverdue(t, today)
  {
  }

  /** A pending task due yesterday is overdue; ticking it off clears the highlight. */
  lemma OverdueExample(st: Store, i: nat)
    requires i < |st.tasks| && st.tasks[i].date == "2024-01-01" && !st.tasks[i].done
    ensures IsOverdue(st.tasks[i], "2024-01-02")
    ensures !IsOverdue(Toggle(st, i).tasks[i], "2024-01-02")
  {
    var d := st.tasks[i].date;
    assert d == "2024-01-0" + ['1'];
    assert "2024-01-02" == "2024-01-0" + ['2'];
    assert LexLess(['1'], ['2']);
    LexLessConcat("2024-01-0", ['1'], "2024-01-0", ['2']);
  }
}

=== FILE: splice.dfy ===
/**
 * The two shapes of `Array.prototype.splice` the task list uses: removing one
 * element at an index, and inserting one element before an index. A start
 * index past the end of the array is clamped to its length, as JavaScript does.
 */
module Splice {

  /** The index `splice` actually uses for a non-negative start `i`. */
  function Clamp(i: nat, n: nat): (j: nat)
    ensures j <= n
    ensures i <= n ==> j == i
    ensures n < i ==> j == n
  {
    if i <= n then i else n
  }

  /** `s.splice(i, 1)`: the array without its element at `i`. */
  function RemoveAt<T>(s: seq<T>, i: nat): (r: seq<T>)
    requires i < |s|
    ensures |r| == |s| - 1
    ensures forall k :: 0 <= k < i ==> r[k] == s[k]
    ensures forall k :: i <= k < |r| ==> r[k] == s[k + 1]
  {
    s[..i] + s[i + 1..]
  }

  /** `s.splice(i, 0, x)`: `x` inserted before index `i`, or appended when `i` is past the end. */
  function InsertAt<T>(s: seq<T>, i: nat, x: T): (r: seq<T>)
    ensures |r| == |s| + 1
    ensures r[Clamp(i, |s|)] == x
    ensures forall k :: 0 <= k < Clamp(i, |s|) ==> r[k] == s[k]
    ensures forall k :: Clamp(i, |s|) < k < |r| ==> r[k] == s[k - 1]
  {
    var j := Clamp(i, |s|);
    s[..j] + [x] + s[j..]
  }

  /** An array is its part before `i`, its element at `i`, and its part after `i`. */
  lemma SplitAt<T>(s: seq<T>, i: nat)
    requires i < |s|
    ensures s == s[..i] + [s[i]] + s[i + 1..]
    ensures RemoveAt(s, i) == s[..i] + s[i + 1..]
  {
  }

  /** Removing an element takes exactly one copy of it out of the array's multiset. */
  lemma RemoveAtMultiset<T>(s: seq<T>, i: nat)
    requires i < |s|
    ensures multiset(RemoveAt(s, i)) + multiset{s[i]} == multiset(s)
  {
    SplitAt(s, i);
  }

  lemma InsertAtMultiset<T>(s: seq<T>, i: nat, x: T)
    ensures multiset(InsertAt(s, i, x)) == multiset(s) + multiset{x}
  {
    var j := Clamp(i, |s|);
    assert s == s[..j] + s[j..];
  }

  /** Putting a removed element back where it was restores the array. */
  lemma InsertRemoved<T>(s: seq<T>, i: nat)
    requires i < |s|
    ensures InsertAt(RemoveAt(s, i), i, s[i]) == s
  {
    var r := InsertAt(RemoveAt(s, i), i, s[i]);
    assert forall k :: 0 <= k < |s| ==> r[k] == s[k];
  }

  /** Removing an element just inserted restores the array. */
  lemma RemoveInserted<T>(s: seq<T>, i: nat, x: T)
    requires i <= |s|
    ensures RemoveAt(InsertAt(s, i, x), i) == s
  {
    var r := RemoveAt(InsertAt(s, i, x), i);
    assert forall k :: 0 <= k < |s| ==> r[k] == s[k];
  }
}

=== FILE: stats.dfy ===
/**
 * The progress block: how many tasks there are, how many are done, and the
 * completed share as a whole percentage rounded half up, as `Math.round` does.
 */
module Stats {
  import opened Splice
  import opened Tasks

  datatype Stats = Stats(total: nat, doneCount: nat, percent: nat)

  /** What one task adds to the done count. */
  function Count(t: Task): nat {
    if t.done then 1 else 0
  }

  /** The number of done tasks, counted front to back as `filter(t => t.done).length` does. */
  function DoneCount(ts: seq<Task>): nat {
    if ts == [] then 0
    else DoneCount(ts[..|ts| - 1]) + Count(ts[|ts| - 1])
  }

  lemma {:induction false} DoneCountBound(ts: seq<Task>)
    ensures DoneCount(ts) <= |ts|
    ensures DoneCount(ts) == |ts| <==> forall k :: 0 <= k < |ts| ==> ts[k].done
    ensures DoneCount(ts) == 0 <==> forall k :: 0 <= k < |ts| ==> !ts[k].done
  {
    if ts != [] {
      var init := ts[..|ts| - 1];
      DoneCountBound(init);
      assert forall k :: 0 <= k < |init| ==> init[k] == ts[k];
    }
  }

  lemma {:induction false} DoneCountAppend(a: seq<Task>, b: seq<Task>)
    ensures DoneCount(a + b) == DoneCount(a) + DoneCount(b)
    decreases |b|
  {
    if b != [] {
      var b' := b[..|b| - 1];
      assert (a + b)[..|a + b| - 1] == a + b';
      DoneCountAppend(a, b');
    } else {
      assert a + b == a;
    }
  }

  lemma CountSplit(pre: seq<Task>, x: Task, post: seq<Task>)
    ensures DoneCount(pre + [x] + post) == DoneCount(pre + post) + Count(x)
  {
    DoneCountAppend(pre + [x], post);
    DoneCountAppend(pre, [x]);
    DoneCountAppend(pre, post);
    assert [x][..0] == [];
  }

  lemma CountSplitAt(s: seq<Task>, pre: seq<Task>, x: Task, post: seq<Task>)
    requires s == pre + [x] + post
    ensures DoneCount(s) == DoneCount(pre + post) + Count(x)
  {
    CountSplit(pre, x, post);
  }

  lemma RemoveAtCount(s: seq<Task>, i: nat)
    requires i < |s|
    ensures DoneCount(s) == DoneCount(RemoveAt(s, i)) + Count(s[i])
  {
    SplitAt(s, i);
    CountSplitAt(s, s[..i], s[i], s[i + 1..]);
  }

  lemma InsertAtCount(s: seq<Task>, i: nat, x: Task)
    ensures DoneCount(InsertAt(s, i, x)) == DoneCount(s) + Count(x)
  {
    var j := Clamp(i, |s|);
    var r := InsertAt(s, i, x);
    RemoveAtCount(r, j);
    assert RemoveAt(r, j) == s;
  }

  /**
   * `Math.round(done / total * 100)`, or 0 for an empty list, in exact integer
   * arithmetic: the percentage nearest to the true share, halves rounded up.
   */
  function Percent(done: nat, total: nat): (p: nat)
    requires done <= total
    ensures p <= 100
    ensures total == 0 ==> p == 0
    ensures total > 0 ==> 2 * p * total <= 200 * done + total < 2 * p * total + 2 * total
    ensures done == 0 ==> p == 0
    ensures 0 < total == done ==> p == 100
  {
    if total == 0 then 0
    else
      var p := (200 * done + total) / (2 * total);
      PercentFacts(done, total, p);
      p
  }

  lemma PercentFacts(done: nat, total: nat, p: nat)
    requires 0 < total && done <= total && p == (200 * done + total) / (2 * total)
    ensures p <= 100
    ensures 2 * p * total <= 200 * done + total < 2 * p * total + 2 * total
    ensures done == 0 ==> p == 0
    ensures done == total ==> p == 100
  {
    var n, d := 200 * done + total, 2 * total;
    var r := n % d;
    assert n == d * p + r && 0 <= r < d;
    assert d * p == 2 * p * total;
    if p >= 101 {
      MulLe(101, p, d);
    }
    if done == 0 && p >= 1 {
      MulLe(1, p, d);
    }
    if done == total {
      if p <= 99 {
        MulLe(p, 99, d);
      }
    }
  }

  lemma MulLe(a: nat, b: nat, t: nat)
    requires a <= b
    ensures a * t <= b * t
  {
    assert b * t - a * t == (b - a) * t;
  }

  /** Everything the progress block shows, derived from the list alone. */
  function ComputeStats(ts: seq<Task>): (s: Stats)
    ensures s.total == |ts|
    ensures s.doneCount <= s.total && s.percent <= 100
    ensures s.doneCount == s.total <==> forall k :: 0 <= k < |ts| ==> ts[k].done
    ensures ts == [] ==> s == Stats(0, 0, 0)
    ensures ts != [] && s.doneCount == s.total ==> s.percent == 100
    ensures s.doneCount == 0 ==> s.percent == 0
  {
    DoneCountBound(ts);
    var done := DoneCount(ts);
    Stats(|ts|, done, Percent(done, |ts|))
  }

  /**
   * The page's `updateStats` walks the list once; the loop computes the same
   * numbers as `ComputeStats`.
   */
  method UpdateStats(ts: seq<Task>) returns (s: Stats)
    ensures s == ComputeStats(ts)
  {
    var done := 0;
    var k := 0;
    while k < |ts|
      invariant k <= |ts|
      invariant done == DoneCount(ts[..k])
    {
      assert ts[..k + 1][..k] == ts[..k];
      if ts[k].done {
        done := done + 1;
      }
      k := k + 1;
    }
    assert ts[..k] == ts;
    DoneCountBound(ts);
    s := Stats(|ts|, done, Percent(done, |ts|));
  }

  /** Two done tasks out of three show 67%. */
  lemma StatsExample(a: Task, b: Task, c: Task)
    requires a.done && !b.done && c.done
    ensures ComputeStats([a, b, c]) == Stats(3, 2, 67)
  {
    assert [a, b, c][..2] == [a, b];
    assert [a, b][..1] == [a];
    assert [a][..0] == [];
    assert DoneCount([a]) == 1;
    assert DoneCount([a, b]) == 1;
    assert DoneCount([a, b, c]) == 2;
    assert (200 * 2 + 3) / (2 * 3) == 67;
  }

  // ---------------------------------------------------------------- how actions move the numbers

  /** Toggling moves the done count by exactly one, in the direction of the new flag. */
  lemma ToggleStats(st: Store, i: nat)
    requires i < |st.tasks|
    ensures var r := Toggle(st, i).tasks;
      DoneCount(r) == if st.tasks[i].done then DoneCount(st.tasks) - 1 else DoneCount(st.tasks) + 1
  {
    var r := Toggle(st, i).tasks;
    RemoveAtCount(st.tasks, i);
    RemoveAtCount(r, i);
    assert RemoveAt(r, i) == RemoveAt(st.tasks, i);
  }

  /** Adding a task adds one to the total and nothing to the done count. */
  lemma AddStats(st: Store, input: string, date: string, id: int)
    ensures var r := Add(st, input, date, id).tasks;
      && DoneCount(r) == DoneCount(st.tasks)
      && |r| == |st.tasks| + (if Text.AllSpace(input) then 0 else 1)
  {
    var r := Add(st, input, date, id).tasks;
    if !Text.AllSpace(input) {
      assert r == st.tasks + [r[|st.tasks|]];
      DoneCountAppend(st.tasks, [r[|st.tasks|]]);
      assert [r[|st.tasks|]][..0] == [];
    }
  }

  /** Pinning and reordering only permute the list, so the numbers stay. */
  lemma PinStats(st: Store, id: int)
    ensures ComputeStats(Pin(st, id).tasks) == ComputeStats(st.tasks)
  {
    if id in IdSet(st.tasks) {
      var k := FindIndex(st.tasks, id).value;
      MoveToFront(st, k);
      MoveStats(st, k, 0);
    }
  }

  lemma MoveStats(st: Store, from: nat, to: nat)
    requires from < |st.tasks| && to < |st.tasks|
    ensures ComputeStats(Move(st, from, to).tasks) == ComputeStats(st.tasks)
  {
    RemoveAtCount(st.tasks, from);
    InsertAtCount(RemoveAt(st.tasks, from), to, st.tasks[from]);
  }

  /** A delete followed by its undo leaves the numbers where they were. */
  lemma DeleteUndoStats(st: Store, i: nat)
    requires i < |st.tasks|
    ensures ComputeStats(Undo(Delete(st, i)).tasks) == ComputeStats(st.tasks)
  {
    UndoDelete(st, i);
  }
}

=== FILE: tasks.dfy ===
/**
 * The task list of the to-do page as a state machine. The page keeps an
 * ordered array of tasks and a single "last deleted" record; every user action
 * edits that array and then persists and re-renders it. Here each action is a
 * pure transition from one `Store` to the next. Rows are addressed by their
 * position in the list, which is what the page's event handlers capture when
 * they render a row; the page re-renders after every change, so those
 * positions are always current.
 */
module Tasks {
  import opened Wrappers
  import opened Text
  import opened Splice

  /** One to-do item. `id` is a millisecond timestamp taken when the task was created. */
  datatype Task = Task(id: int, text: string, done: bool, date: string)

  /** The most recent deletion: the task and the index it was removed from. */
  datatype Deleted = Deleted(task: Task, index: nat)

  datatype Store = Store(tasks: seq<Task>, lastDeleted: Option<Deleted>)

  function IdSet(ts: seq<Task>): set<int> {
    set k | 0 <= k < |ts| :: ts[k].id
  }

  predicate UniqueIds(ts: seq<Task>) {
    forall j, k :: 0 <= j < k < |ts| ==> ts[j].id != ts[k].id
  }

  /** A task text as the page accepts it: non-empty and already trimmed. */
  predicate GoodText(t: Task) {
    t.text != [] && IsTrimmed(t.text)
  }

  predicate GoodTexts(ts: seq<Task>) {
    forall k :: 0 <= k < |ts| ==> GoodText(ts[k])
  }

  /**
   * The invariants the page relies on: ids are unique, texts are non-empty and
   * trimmed, and the task held for undo is not also in the list.
   */
  predicate Valid(st: Store) {
    && UniqueIds(st.tasks)
    && GoodTexts(st.tasks)
    && (st.lastDeleted.Some? ==>
          && st.lastDeleted.value.task.id !in IdSet(st.tasks)
          && GoodText(st.lastDeleted.value.task))
  }

  /** An id that no task of the store, listed or held for undo, carries. */
  predicate Fresh(st: Store, id: int) {
    id !in IdSet(st.tasks) && (st.lastDeleted.Some? ==> st.lastDeleted.value.task.id != id)
  }

  // ---------------------------------------------------------------- loading

  /**
   * The two tasks a first visit starts with. The page reads `Date.now()` once
   * per task: `now` is the first reading and `later` the second, so the ids
   * are `now` and `later + 1`. They are distinct unless the clock stepped back
   * by exactly one millisecond between the two readings.
   */
  function Seed(now: int, later: int): (ts: seq<Task>)
    ensures |ts| == 2
    ensures ts[0].id == now && ts[1].id == later + 1
    ensures GoodTexts(ts)
    ensures forall k :: 0 <= k < |ts| ==> !ts[k].done && ts[k].date == ""
    ensures UniqueIds(ts) <==> later + 1 != now
  {
    [ Task(now, "Welcome to TaskPro \U{1F44B}", false, ""),
      Task(later + 1, "Drag or swipe tasks", false, "") ]
  }

  /**
   * Page load: the stored list when there is one, the seed otherwise. `stored`
   * stands for what `JSON.parse` returns from storage, `None` for a missing key.
   */
  function Load(stored: Option<seq<Task>>, now: int, later: int): (st: Store)
    ensures st.lastDeleted == None
    ensures stored.Some? ==> st.tasks == stored.value
    ensures stored.None? ==>
      && |st.tasks| == 2
      && forall k :: 0 <= k < |st.tasks| ==> !st.tasks[k].done && st.tasks[k].date == ""
    ensures stored.None? ==> (Valid(st) <==> later + 1 != now)
  {
    match stored
    case Some(ts) => Store(ts, None)
    case None => Store(Seed(now, later), None)
  }

  // ---------------------------------------------------------------- add

  /**
   * The add button: `input` is trimmed; all-space input is ignored, anything
   * else becomes a new pending task at the end of the list.
   */
  function Add(st: Store, input: string, date: string, id: int): (r: Store)
    ensures r.lastDeleted == st.lastDeleted
    ensures AllSpace(input) ==> r == st
    ensures !AllSpace(input) ==>
      && |r.tasks| == |st.tasks| + 1
      && r.tasks[..|st.tasks|] == st.tasks
      && r.tasks[|st.tasks|] == Task(id, Trim(input), false, date)
  {
    var text := Trim(input);
    if text == [] then st
    else Store(st.tasks + [Task(id, text, false, date)], st.lastDeleted)
  }

  lemma AddValid(st: Store, input: string, date: string, id: int)
    requires Valid(st) && Fresh(st, id)
    ensures Valid(Add(st, input, date, id))
  {
    if !AllSpace(input) {
      var s := st.tasks;
      var t := Task(id, Trim(input), false, date);
      var r := s + [t];
      assert Add(st, input, date, id) == Store(r, st.lastDeleted);
      forall a, b | 0 <= a < b < |r| ensures r[a].id != r[b].id {
        assert r[a] == s[a];
        if b == |s| {
          assert s[a].id in IdSet(s);
        } else {
          assert r[b] == s[b];
        }
      }
      forall k | 0 <= k < |r| ensures GoodText(r[k]) {
        if k < |s| { assert r[k] == s[k]; }
      }
      assert IdSet(r) == IdSet(s) + {id} by {
        assert forall k :: 0 <= k < |s| ==> r[k] == s[k];
        assert r[|s|] == t;
      }
    }
  }

  // ---------------------------------------------------------------- pin

  /** `findIndex(t => t.id === id)`: the first position carrying `id`. */
  function FindIndex(ts: seq<Task>, id: int): (r: Option<nat>)
    ensures r.None? <==> id !in IdSet(ts)
    ensures r.Some? ==> r.value < |ts| && ts[r.value].id == id
    ensures r.Some? ==> forall k :: 0 <= k < r.value ==> ts[k].id != id
  {
    if ts == [] then None
    else if ts[0].id == id then Some(0)
    else
      match FindIndex(ts[1..], id)
      case None =>
        assert IdSet(ts) == {ts[0].id} + IdSet(ts[1..]) by {
          forall k | 0 <= k < |ts| ensures ts[k].id in {ts[0].id} + IdSet(ts[1..]) {
            if k > 0 { assert ts[k] == ts[1..][k - 1]; }
          }
        }
        None
      case Some(k) => Some(k + 1)
  }

  /**
   * The pin button: the first task carrying `id` moves to the front; the others
   * keep their order. An id that is not in the list changes nothing.
   */
  function Pin(st: Store, id: int): (r: Store)
    ensures r.lastDeleted == st.lastDeleted
    ensures id !in IdSet(st.tasks) ==> r == st
    ensures id in IdSet(st.tasks) ==>
      && |r.tasks| == |st.tasks|
      && r.tasks[0].id == id
      && multiset(r.tasks) == multiset(st.tasks)
      && exists k: nat :: FindIndex(st.tasks, id) == Some(k) && k < |st.tasks| && r.tasks[0] == st.tasks[k]
           && r.tasks[1..] == st.tasks[..k] + st.tasks[k + 1..]
  {
    match FindIndex(st.tasks, id)
    case None => st
    case Some(k) =>
      var t := st.tasks[k];
      RemoveAtMultiset(st.tasks, k);
      Store([t] + RemoveAt(st.tasks, k), st.lastDeleted)
  }

  /** Pinning an already pinned task changes nothing. */
  lemma PinIdempotent(st: Store, id: int)
    ensures Pin(Pin(st, id), id) == Pin(st, id)
  {
    var r := Pin(st, id);
    if id in IdSet(st.tasks) {
      assert FindIndex(r.tasks, id) == Some(0);
      assert [r.tasks[0]] + RemoveAt(r.tasks, 0) == r.tasks;
    }
  }

  lemma PinValid(st: Store, id: int)
    requires Valid(st)
    ensures Valid(Pin(st, id))
  {
    if id in IdSet(st.tasks) {
      var k := FindIndex(st.tasks, id).value;
      MoveToFront(st, k);
      MoveValid(st, k, 0);
    }
  }

  /** Pinning the task at `k` is the drop of row `k` onto row 0. */
  lemma MoveToFront(st: Store, k: nat)
    requires k < |st.tasks|
    ensures Move(st, k, 0).tasks == [st.tasks[k]] + RemoveAt(st.tasks, k)
    ensures FindIndex(st.tasks, st.tasks[k].id) == Some(k) ==> Pin(st, st.tasks[k].id) == Move(st, k, 0)
  {
  }

  // ---------------------------------------------------------------- toggle and edit

  /** Clicking a task's text (or its check button, or swiping right) flips its `done` flag. */
  function Toggle(st: Store, i: nat): (r: Store)
    requires i < |st.tasks|
    ensures r.lastDeleted == st.lastDeleted
    ensures |r.tasks| == |st.tasks|
    ensures r.tasks[i].done == !st.tasks[i].done
    ensures r.tasks[i] == st.tasks[i].(done := r.tasks[i].done)
    ensures forall k :: 0 <= k < |st.tasks| && k != i ==> r.tasks[k] == st.tasks[k]
  {
    var t := st.tasks[i];
    Store(st.tasks[i := t.(done := !t.done)], st.lastDeleted)
  }

  lemma ToggleTwice(st: Store, i: nat)
    requires i < |st.tasks|
    ensures Toggle(Toggle(st, i), i) == st
  {
    assert Toggle(Toggle(st, i), i).tasks == st.tasks;
  }

  lemma ToggleValid(st: Store, i: nat)
    requires Valid(st) && i < |st.tasks|
    ensures Valid(Toggle(st, i))
  {
    var r := Toggle(st, i);
    assert IdSet(r.tasks) == IdSet(st.tasks) by {
      forall k | 0 <= k < |st.tasks| ensures r.tasks[k].id == st.tasks[k].id { }
    }
  }

  /**
   * Committing an edit (Enter or leaving the field): the trimmed input replaces
   * the text unless it is empty, in which case the old text stays.
   */
  function Edit(st: Store, i: nat, input: string): (r: Store)
    requires i < |st.tasks|
    ensures r.lastDeleted == st.lastDeleted
    ensures |r.tasks| == |st.tasks|
    ensures r.tasks[i] == st.tasks[i].(text := r.tasks[i].text)
    ensures AllSpace(input) ==> r.tasks[i].text == st.tasks[i].text
    ensures !AllSpace(input) ==> r.tasks[i].text == Trim(input)
    ensures forall k :: 0 <= k < |st.tasks| && k != i ==> r.tasks[k] == st.tasks[k]
  {
    var t := st.tasks[i];
    var text := Trim(input);
    Store(st.tasks[i := t.(text := if text != [] then text else t.text)], st.lastDeleted)
  }

  /** Leaving the edit field without typing anything changes nothing. */
  lemma EditUnchanged(st: Store, i: nat)
    requires i < |st.tasks| && IsTrimmed(st.tasks[i].text)
    ensures Edit(st, i, st.tasks[i].text) == st
  {
    TrimTrimmed(st.tasks[i].text);
    EditSameText(st, i, st.tasks[i].text);
  }

  /** An input that trims to the current text leaves the store as it was. */
  lemma EditSameText(st: Store, i: nat, input: string)
    requires i < |st.tasks| && Trim(input) == st.tasks[i].text
    ensures Edit(st, i, input) == st
  {
    var r := Edit(st, i, input);
    assert r.tasks[i] == st.tasks[i];
    assert r.tasks == st.tasks;
  }

  lemma EditValid(st: Store, i: nat, input: string)
    requires Valid(st) && i < |st.tasks|
    ensures Valid(Edit(st, i, input))
  {
    var r := Edit(st, i, input);
    assert IdSet(r.tasks) == IdSet(st.tasks) by {
      forall k | 0 <= k < |st.tasks| ensures r.tasks[k].id == st.tasks[k].id { }
    }
  }

  // ---------------------------------------------------------------- drag and drop

  /**
   * Dropping the row dragged from `from` onto the row at `to`: the task is
   * removed and then inserted at `to` of the shortened list.
   */
  function Move(st: Store, from: nat, to: nat): (r: Store)
    requires from < |st.tasks| && to < |st.tasks|
    ensures r.lastDeleted == st.lastDeleted
    ensures |r.tasks| == |st.tasks|
    ensures multiset(r.tasks) == multiset(st.tasks)
    ensures r.tasks[to] == st.tasks[from]
    ensures forall k :: 0 <= k < |st.tasks| && k < from && k < to ==> r.tasks[k] == st.tasks[k]
    ensures forall k :: 0 <= k < |st.tasks| && k > from && k > to ==> r.tasks[k] == st.tasks[k]
    ensures RemoveAt(r.tasks, to) == RemoveAt(st.tasks, from)
  {
    var t := st.tasks[from];
    RemoveAtMultiset(st.tasks, from);
    RemoveInserted(RemoveAt(st.tasks, from), to, t);
    InsertAtMultiset(RemoveAt(st.tasks, from), to, t);
    Store(InsertAt(RemoveAt(st.tasks, from), to, t), st.lastDeleted)
  }

  /** Dragging the task back to where it came from undoes a move. */
  lemma MoveBack(st: Store, from: nat, to: nat)
    requires from < |st.tasks| && to < |st.tasks|
    ensures Move(Move(st, from, to), to, from) == st
  {
    var s := st.tasks;
    var m := Move(st, from, to).tasks;
    RemoveInserted(RemoveAt(s, from), to, s[from]);
    assert RemoveAt(m, to) == RemoveAt(s, from);
    InsertRemoved(s, from);
  }

  /** The drop from index 0 onto index 2 of `[A, B, C, D]` gives `[B, C, A, D]`. */
  lemma MoveExample(a: Task, b: Task, c: Task, d: Task)
    ensures Move(Store([a, b, c, d], None), 0, 2).tasks == [b, c, a, d]
  {
    assert [a, b, c, d][..0] + [a, b, c, d][1..] == [b, c, d];
    assert [b, c, d][..2] + [a] + [b, c, d][2..] == [b, c, a, d];
  }

  lemma MoveValid(st: Store, from: nat, to: nat)
    requires Valid(st) && from < |st.tasks| && to < |st.tasks|
    ensures Valid(Move(st, from, to))
  {
    var s := st.tasks;
    var m := RemoveAt(s, from);
    var r := InsertAt(m, to, s[from]);
    RemoveKeepsUnique(s, from);
    RemoveAtMultiset(s, from);
    assert s[from].id !in IdSet(m) by {
      forall k | 0 <= k < |m| ensures m[k].id != s[from].id {
        if k < from { assert m[k] == s[k]; } else { assert m[k] == s[k + 1]; }
      }
    }
    InsertKeepsUnique(m, to, s[from]);
    InsertAtMultiset(m, to, s[from]);
    PermutationKeepsIds(s, r);
    assert Move(st, from, to) == Store(r, st.lastDeleted);
  }

  // ---------------------------------------------------------------- delete and undo

  /**
   * The delete button (or a swipe left): the task leaves the list and is
   * recorded, with its index, as the one deletion that can be undone. Any
   * earlier record is overwritten.
   */
  function Delete(st: Store, i: nat): (r: Store)
    requires i < |st.tasks|
    ensures |r.tasks| == |st.tasks| - 1
    ensures r.tasks[..i] == st.tasks[..i]
    ensures r.tasks[i..] == st.tasks[i + 1..]
    ensures r.lastDeleted == Some(Deleted(st.tasks[i], i))
  {
    Store(RemoveAt(st.tasks, i), Some(Deleted(st.tasks[i], i)))
  }

  /**
   * The UNDO button: the recorded task goes back at its recorded index (or at
   * the end, when the list has since become shorter than that). The record is
   * consumed, so a second undo does nothing. With no record there is nothing to
   * restore.
   */
  function Undo(st: Store): (r: Store)
    ensures r.lastDeleted == None
    ensures st.lastDeleted.None? ==> r.tasks == st.tasks
    ensures st.lastDeleted.Some? ==>
      var d := st.lastDeleted.value;
      var j := Clamp(d.index, |st.tasks|);
      && |r.tasks| == |st.tasks| + 1
      && r.tasks[j] == d.task
      && r.tasks[..j] == st.tasks[..j]
      && r.tasks[j + 1..] == st.tasks[j..]
  {
    match st.lastDeleted
    case None => st
    case Some(d) => Store(InsertAt(st.tasks, d.index, d.task), None)
  }

  /** Undo right after a delete restores the exact list the delete started from. */
  lemma UndoDelete(st: Store, i: nat)
    requires i < |st.tasks|
    ensures Undo(Delete(st, i)).tasks == st.tasks
  {
    InsertRemoved(st.tasks, i);
  }

  /**
   * After two deletions only the second can be undone: undo restores the list
   * as it stood between them, and the first task stays gone.
   */
  lemma UndoAfterTwoDeletes(st: Store, i: nat, j: nat)
    requires i < |st.tasks| && j < |st.tasks| - 1
    ensures Undo(Delete(Delete(st, i), j)).tasks == Delete(st, i).tasks
    ensures Undo(Delete(Delete(st, i), j)).lastDeleted == None
  {
    UndoDelete(Delete(st, i), j);
  }

  /** Undo is idempotent: once the record is consumed, undo is a no-op. */
  lemma UndoIdempotent(st: Store)
    ensures Undo(Undo(st)) == Undo(st)
  {
  }

  lemma DeleteValid(st: Store, i: nat)
    requires Valid(st) && i < |st.tasks|
    ensures Valid(Delete(st, i))
  {
    var s := st.tasks;
    RemoveKeepsUnique(s, i);
    forall k | 0 <= k < |s| - 1 ensures RemoveAt(s, i)[k].id != s[i].id {
      if k < i { assert RemoveAt(s, i)[k] == s[k]; } else { assert RemoveAt(s, i)[k] == s[k + 1]; }
    }
  }

  lemma UndoValid(st: Store)
    requires Valid(st)
    ensures Valid(Undo(st))
  {
    if st.lastDeleted.Some? {
      var d := st.lastDeleted.value;
      InsertKeepsUnique(st.tasks, d.index, d.task);
      var r := InsertAt(st.tasks, d.index, d.task);
      forall k | 0 <= k < |r| ensures GoodText(r[k]) {
        var j := Clamp(d.index, |st.tasks|);
        if k < j { assert r[k] == st.tasks[k]; } else if k > j { assert r[k] == st.tasks[k - 1]; }
      }
    }
  }

  /**
   * The UNDO handler as the page writes it: the recorded task is reinserted but
   * the record is kept. Every deletion opens its own undo toast, and every
   * toast's button reads the one shared record.
   */
  function UndoAsWritten(st: Store): (r: Store)
    ensures r.lastDeleted == st.lastDeleted
    ensures st.lastDeleted.None? ==> r.tasks == st.tasks
    ensures st.lastDeleted.Some? ==>
      var d := st.lastDeleted.value;
      var j := Clamp(d.index, |st.tasks|);
      && |r.tasks| == |st.tasks| + 1
      && r.tasks[j] == d.task
      && r.tasks[..j] == st.tasks[..j]
      && r.tasks[j + 1..] == st.tasks[j..]
  {
    match st.lastDeleted
    case None => st
    case Some(d) => Store(InsertAt(st.tasks, d.index, d.task), st.lastDeleted)
  }

  /**
   * The handler as written puts back the same list as the corrected undo; the
   * two differ only in the record, which the handler keeps.
   */
  lemma UndoAsWrittenAgrees(st: Store)
    ensures UndoAsWritten(st).tasks == Undo(st).tasks
    ensures UndoAsWritten(st).lastDeleted == st.lastDeleted
    ensures Undo(st).lastDeleted == None
  {
  }

  /**
   * Pressing UNDO twice with the record still held puts the same task back
   * twice, so the list holds two tasks with the same id.
   */
  lemma UndoAsWrittenTwice(st: Store)
    requires st.lastDeleted.Some?
    ensures !UniqueIds(UndoAsWritten(UndoAsWritten(st)).tasks)
  {
    var d := st.lastDeleted.value;
    var once := InsertAt(st.tasks, d.index, d.task);
    var twice := InsertAt(once, d.index, d.task);
    var a := Clamp(d.index, |st.tasks|);
    var b := Clamp(d.index, |once|);
    assert once[a] == d.task && twice[b] == d.task;
    if d.index <= |st.tasks| {
      assert twice[b + 1] == once[a];
      assert twice[b].id == twice[b + 1].id;
    } else {
      assert twice[a] == once[a];
      assert twice[a].id == twice[b].id && a < b;
    }
  }

  /**
   * Two deletions within the toast's lifetime leave two UNDO buttons that read
   * the one shared record; pressing both restores the second task twice and the
   * first deleted task not at all.
   */
  lemma UndoAsWrittenDuplicates(st: Store, i: nat, j: nat)
    requires i < |st.tasks| && j < |st.tasks| - 1
    ensures |UndoAsWritten(UndoAsWritten(Delete(Delete(st, i), j))).tasks| == |st.tasks|
    ensures !UniqueIds(UndoAsWritten(UndoAsWritten(Delete(Delete(st, i), j))).tasks)
  {
    UndoAsWrittenTwice(Delete(Delete(st, i), j));
  }

  // ---------------------------------------------------------------- swipe

  /**
   * A touch swipe on row `i`: more than 80 pixels right toggles the task, more
   * than 80 pixels left deletes it, anything in between is ignored.
   */
  function Swipe(st: Store, i: nat, dx: real): (r: Store)
    requires i < |st.tasks|
    ensures dx > 80.0 ==> r == Toggle(st, i)
    ensures dx < -80.0 ==> r == Delete(st, i)
    ensures -80.0 <= dx <= 80.0 ==> r == st
  {
    if dx > 80.0 then Toggle(st, i)
    else if dx < -80.0 then Delete(st, i)
    else st
  }

  /**
   * A swipe of any length keeps the store valid; only a swipe to the left
   * shortens the list, by exactly one task.
   */
  lemma SwipeValid(st: Store, i: nat, dx: real)
    requires Valid(st) && i < |st.tasks|
    ensures Valid(Swipe(st, i, dx))
    ensures |Swipe(st, i, dx).tasks| == |st.tasks| - (if dx < -80.0 then 1 else 0)
  {
    if dx > 80.0 {
      ToggleValid(st, i);
    } else if dx < -80.0 {
      DeleteValid(st, i);
    }
  }

  /** Swiping the same row to the right twice restores the store. */
  lemma SwipeRightTwice(st: Store, i: nat, dx: real)
    requires i < |st.tasks| && dx > 80.0
    ensures Swipe(Swipe(st, i, dx), i, dx) == st
  {
    ToggleTwice(st, i);
  }

  /** A swipe to the left is undone by UNDO, like the delete button. */
  lemma SwipeLeftUndo(st: Store, i: nat, dx: real)
    requires i < |st.tasks| && dx < -80.0
    ensures Undo(Swipe(st, i, dx)).tasks == st.tasks
  {
    UndoDelete(st, i);
  }

  // ---------------------------------------------------------------- id helpers

  lemma PermutationKeepsIds(a: seq<Task>, b: seq<Task>)
    requires multiset(a) == multiset(b)
    ensures IdSet(a) == IdSet(b)
  {
    forall id | id in IdSet(a) ensures id in IdSet(b) {
      var k :| 0 <= k < |a| && a[k].id == id;
      assert a[k] in multiset(b);
    }
    forall id | id in IdSet(b) ensures id in IdSet(a) {
      var k :| 0 <= k < |b| && b[k].id == id;
      assert b[k] in multiset(a);
    }
  }

  lemma RemoveKeepsUnique(s: seq<Task>, i: nat)
    requires i < |s| && UniqueIds(s)
    ensures UniqueIds(RemoveAt(s, i))
    ensures GoodTexts(s) ==> GoodTexts(RemoveAt(s, i))
  {
    var r := RemoveAt(s, i);
    forall a, b | 0 <= a < b < |r| ensures r[a].id != r[b].id {
      var a' := if a < i then a else a + 1;
      var b' := if b < i then b else b + 1;
      assert r[a] == s[a'] && r[b] == s[b'];
    }
    if GoodTexts(s) {
      forall k | 0 <= k < |r| ensures GoodText(r[k]) {
        if k < i { assert r[k] == s[k]; } else { assert r[k] == s[k + 1]; }
      }
    }
  }

  lemma InsertKeepsUnique(s: seq<Task>, i: nat, x: Task)
    requires UniqueIds(s) && x.id !in IdSet(s)
    ensures UniqueIds(InsertAt(s, i, x))
    ensures GoodTexts(s) && GoodText(x) ==> GoodTexts(InsertAt(s, i, x))
  {
    var r := InsertAt(s, i, x);
    var j := Clamp(i, |s|);
    forall a, b | 0 <= a < b < |r| ensures r[a].id != r[b].id {
      if a == j {
        assert r[b] == s[b - 1];
      } else if b == j {
        assert r[a] == s[a];
      } else {
        var a' := if a < j then a else a - 1;
        var b' := if b < j then b else b - 1;
        assert r[a] == s[a'] && r[b] == s[b'];
      }
    }
    if GoodTexts(s) && GoodText(x) {
      forall k | 0 <= k < |r| ensures GoodText(r[k]) {
        if k < j { assert r[k] == s[k]; } else if k > j { assert r[k] == s[k - 1]; }
      }
    }
  }
}

=== FILE: text.dfy ===
/**
 * Whitespace trimming, the only validation the task list applies to user text.
 * `String.prototype.trim` strips Unicode white space and line terminators from
 * both ends; `IsSpace` lists the ones a text input can realistically carry.
 */
module Text {

  predicate IsSpace(c: char) {
    c == ' ' || c == '\t' || c == '\n' || c == '\r' || c == '\U{0B}' || c == '\U{0C}'
    || c == '\U{A0}' || c == '\U{FEFF}' || c == '\U{2028}' || c == '\U{2029}'
  }

  predicate AllSpace(s: string) {
    forall k :: 0 <= k < |s| ==> IsSpace(s[k])
  }

  /** A string that trimming leaves alone: empty, or neither end is white space. */
  predicate IsTrimmed(s: string) {
    s == [] || (!IsSpace(s[0]) && !IsSpace(s[|s| - 1]))
  }

  /** Drops the longest all-space prefix. */
  function TrimStart(s: string): (r: string)
    ensures |r| <= |s| && r == s[|s| - |r|..]
    ensures AllSpace(s[..|s| - |r|])
    ensures r == [] || !IsSpace(r[0])
  {
    if |s| > 0 && IsSpace(s[0]) then
      var r := TrimStart(s[1..]);
      assert s[..|s| - |r|] == [s[0]] + s[1..][..|s| - 1 - |r|];
      r
    else s
  }

  /** Drops the longest all-space suffix. */
  function TrimEnd(s: string): (r: string)
    ensures |r| <= |s| && r == s[..|r|]
    ensures AllSpace(s[|r|..])
    ensures r == [] || !IsSpace(r[|r| - 1])
  {
    if |s| > 0 && IsSpace(s[|s| - 1]) then
      var r := TrimEnd(s[..|s| - 1]);
      assert s[|r|..] == s[..|s| - 1][|r|..] + [s[|s| - 1]];
      r
    else s
  }

  /**
   * `s.trim()`: the part of `s` between its leading and trailing white space.
   * The result is empty exactly when `s` is all white space.
   */
  function Trim(s: string): (r: string)
    ensures IsTrimmed(r)
    ensures r == [] <==> AllSpace(s)
    ensures exists i, j :: 0 <= i <= j <= |s| && r == s[i..j] && AllSpace(s[..i]) && AllSpace(s[j..])
  {
    TrimParts(s);
    TrimEnd(TrimStart(s))
  }

  lemma AllSpaceConcat(a: string, b: string)
    requires AllSpace(a) && AllSpace(b)
    ensures AllSpace(a + b)
  {
  }

  /** The facts about `TrimEnd(TrimStart(s))` that `Trim` promises. */
  lemma TrimParts(s: string)
    ensures var r := TrimEnd(TrimStart(s));
      && (r == [] <==> AllSpace(s))
      && exists i, j :: 0 <= i <= j <= |s| && r == s[i..j] && AllSpace(s[..i]) && AllSpace(s[j..])
  {
    var t := TrimStart(s);
    var r := TrimEnd(t);
    var i := |s| - |t|;
    var j := i + |r|;
    TrimSlice(s, t, r, i, j);
    TrimEmpty(s, t, r, i);
  }

  lemma TrimSlice(s: string, t: string, r: string, i: nat, j: nat)
    requires |t| <= |s| && t == s[|s| - |t|..] && AllSpace(s[..|s| - |t|])
    requires |r| <= |t| && r == t[..|r|] && AllSpace(t[|r|..])
    requires i == |s| - |t| && j == i + |r|
    ensures j <= |s| && r == s[i..j] && AllSpace(s[..i]) && AllSpace(s[j..])
  {
    assert s[j..] == t[|r|..];
  }

  lemma TrimEmpty(s: string, t: string, r: string, i: nat)
    requires |t| <= |s| && i == |s| - |t| && t == s[i..] && AllSpace(s[..i])
    requires |r| <= |t| && r == t[..|r|] && AllSpace(t[|r|..])
    requires r == [] || !IsSpace(r[0])
    ensures r == [] <==> AllSpace(s)
  {
    if r == [] {
      assert t[|r|..] == t;
      assert s == s[..i] + t;
      AllSpaceConcat(s[..i], t);
    } else {
      assert s[i] == r[0];
    }
  }

  /** Trimming is idempotent: a trimmed string is its own trim. */
  lemma {:induction false} TrimTrimmed(s: string)
    requires IsTrimmed(s)
    ensures Trim(s) == s
  {
    assert TrimStart(s) == s;
    assert TrimEnd(s) == s;
  }

  lemma TrimIdempotent(s: string)
    ensures Trim(Trim(s)) == Trim(s)
  {
    TrimTrimmed(Trim(s));
  }
}

=== FILE: wrappers.dfy ===
/** Failure-compatible optional values, used for the undo slot and for parse results. */
module Wrappers {

  datatype Option<+T> = None | Some(value: T) {

    predicate IsFailure() {
      None?
    }

    function PropagateFailure<U>(): Option<U>
      requires None?
    {
      None
    }

    function Extract(): T
      requires Some?
    {
      value
    }
  }
}
